=== FILE: README.md ===
# Grammar quiz session — a Dafny model

The application is a single-page grammar quiz. It shows ten fill-in-the-blank
questions one at a time. The user picks an option, submits it, sees whether it was
right, and moves on. At the end a summary shows the score out of the question count
and one of three feedback messages; a rounded percentage of the score picks the
message. All of the behaviour sits in one small state machine in
`src/App.tsx`, which runs over the constant question list in `src/data/questions.ts`.
This project models that state machine and the view facts derived from it, and proves
their properties.

Modules (one per file):

- `Wrappers` (`wrappers.dfy`): `Option`, which stands for TypeScript's `string | null`.
- `Questions` (`questions.dfy`): the `Question` record and the `Difficulty` labels. It
  holds the ten shipped questions as constants and the well-formedness predicates the
  session relies on.
- `Session` (`session.dfy`): the five-field state record, the initial state and the
  four click handlers. Each handler is one atomic update of the record. The module also
  has `Available`, which says which buttons are on screen and enabled in a state, and
  the invariant `Inv` that every reachable state satisfies.
- `Traces` (`traces.dfy`): sequences of available actions. It lifts the one-step facts
  to whole sessions: the index stays in range, each question is credited at most once,
  and the score counts the correct submissions.
- `View` (`view.dfy`): the final percentage, with JavaScript `Math.round` taken on exact
  rationals, and the feedback tier. It also covers how each option button is marked
  and how the blank is shown.
- `Scenarios` (`scenarios.dfy`): concrete sessions on the shipped bank.

The intent is that a question is submitted at most once and that "next" only follows a submit. The handlers do not enforce this. The model follows the code.

- `handleSubmit` has no `submitted` guard. Called twice on a right answer, it credits
  two points (`Session.SubmitTwiceAsWritten`).
- `handleNext` advances even from an unanswered question
  (`Session.NextAsWrittenIgnoresSubmitted`).
- The "once per question" and "next only after submit" behaviour is enforced only by
  which buttons the page renders. The model states it through `Session.Available` and
  proves the invariants over traces of available actions only.
- The submit guard `if (!selected)` treats the empty string like `null`. It is modelled
  by `Session.HasSelection`.
- "Restart" is rendered only on the summary screen, so it is available only when the
  session is finished.

## Model

| member | source | states |
|---|---|---|
| `Questions.Label` | src/data/questions.ts:1 | the label of every level is one of the three strings of the `Difficulty` union |
| `Questions.LabelsMatchUnion` | src/data/questions.ts:1 | a string belongs to the union exactly when it is the label of some level, and no two levels share a label |
| `Questions.IdsAscending` | src/data/questions.ts:17-148 | in a well-formed list the ids strictly ascend, so no two questions share an id |
| `Questions.EachQuestionWellFormed` | src/data/questions.ts:17-148 | every shipped question has exactly four pairwise distinct, non-empty options, and the correct answer is one of them |
| `Questions.AllQuestionsWellFormed` | src/data/questions.ts:17-148 | the bank is non-empty with 10 entries and ids 1..10 in order; every entry is well formed; question 1's answer is "Although" and question 10's is "had I reached" |
| `Session.Init` | src/App.tsx:7-11 | a session starts on the first question with no points, the selection `null`, nothing submitted and not finished |
| `Session.HasSelection` | src/App.tsx:21 | a selection counts exactly when it is neither `null` nor the empty string, the JavaScript truthiness the submit guard tests (and the blank colour and text at lines 153 and 157) |
| `Session.HandleSelect` | src/App.tsx:15-18 | after submission the whole state is unchanged; before it the selection becomes the clicked option, replacing any earlier one, and no other field changes |
| `Session.HandleSubmit` | src/App.tsx:20-26 | with no selection or an empty one, nothing changes; otherwise the answer is locked in and the score rises by one exactly when the selection equals the correct answer (exact, case-sensitive) and stays the same exactly when it does not; index, selection and finished flag are untouched |
| `Session.HandleNext` | src/App.tsx:28-36 | the score never changes; before the last question the index moves up by one and the selection and submitted flag are cleared; on the last question the session finishes and the index, selection and submitted flag stay; an in-range index stays in range |
| `Session.HandleRestart` | src/App.tsx:38-44 | from any state the result is exactly the initial state of lines 7-11 |
| `Session.Available` | src/App.tsx:188-220 | on the summary screen (line 55) exactly restart is available; on the question screen restart never is, and with the index in range a select is available exactly for an option of the current question while unsubmitted, submit exactly while unsubmitted with a truthy selection, and next exactly after submitting |
| `Session.Apply` | src/App.tsx:13-44 | a restart click yields the initial state; any other click never lowers the score |
| `Session.InitInv` | src/App.tsx:7-11 | the initial state satisfies the session invariant whenever the list is non-empty |
| `Session.InvBounds` | src/App.tsx:13 | in a good state `0 <= currentIdx < |questions|` and `score <= currentIdx + (submitted ? 1 : 0) <= |questions|` |
| `Session.StepKeepsInv` | src/App.tsx:15-44 | every click on an available button keeps the invariant: index in range, score bounded by the questions answered, a submitted answer is a real selection, finished only after submitting, the selection is one of the current options |
| `Session.StepCreditsOnce` | src/App.tsx:20-36 | a non-restart step raises the score by one exactly when it submits the right answer; it never lowers the first still-creditable question index; a crediting step credits the current question and moves that index past it |
| `Session.SubmitScoresIffCorrect` | src/App.tsx:20-26 | an available submit locks the answer in, and the score rises exactly when the feedback card then reports the answer correct |
| `Session.SelectTwiceLastWins` | src/App.tsx:15-18 | two selections before submitting leave only the second, with nothing submitted |
| `Session.IsCorrect` | src/App.tsx:236-247 | the feedback card reports "correct" only for a submitted selection; for a question with a non-empty answer, exactly when the submitted, truthy selection equals that answer |
| `Session.SelectEnablesSubmit` | src/App.tsx:201-212 | on a non-empty list of well-formed questions, selecting any rendered option enables the submit button, because no option is the empty string |
| `Session.SubmitTwiceAsWritten` | src/App.tsx:20-26 | the handler itself has no submitted guard: submitting a right answer twice adds two points |
| `Session.SubmitNotAvailableTwice` | src/App.tsx:201-220 | after an available submit, the submit button is gone and the next button is present |
| `Session.NextAsWrittenIgnoresSubmitted` | src/App.tsx:28-36 | the next handler advances from an unsubmitted question, finished or not, but the next button is not available there |
| `Traces.TraceKeepsInv` | src/App.tsx:15-44 | every state reached from a good state by available clicks is good |
| `Traces.ReachableBounds` | src/App.tsx:7-36 | every state reachable from the start has `currentIdx < |questions|` and `score <= currentIdx + (submitted ? 1 : 0) <= |questions|` |
| `Traces.ScoreCountsCorrectSubmits` | src/App.tsx:20-26 | without a restart, the score grows by exactly the number of correct submissions in the trace |
| `Traces.CreditedAtMostOnce` | src/App.tsx:201-220 | without a restart, the question indices credited with a point strictly increase and lie in range, so each question is credited at most once |
| `Traces.SessionScore` | src/App.tsx:20-36 | a session from the start without restart ends with a score equal to the number of distinct questions answered correctly, and at most the number of questions |
| `Traces.RestartAfterFinish` | src/App.tsx:93-99 | from the summary screen, the restart button leads to exactly the initial state |
| `Traces.FinishedOnlyRestarts` | src/App.tsx:55-103 | once finished, restart is the only available action, so every click sequence from the summary starts with a restart and one without a restart is empty |
| `Traces.PerfectFromScores` | src/App.tsx:15-36 | answering every remaining question correctly from a fresh question view is a valid click sequence; it finishes the session with one more point per remaining question |
| `Traces.PerfectSession` | src/App.tsx:15-36 | answering every question correctly from the start finishes the session with a full score |
| `View.Percentage` | src/App.tsx:56 | the percentage is the integer nearest to `100 * score / count`, with halves rounded up; it is at most 100 when the score is at most the count |
| `View.PercentageIsNearest` | src/App.tsx:56 | any integer with the nearest-rounding property equals the percentage |
| `View.PercentageMonotone` | src/App.tsx:56 | a higher score never gives a lower percentage |
| `View.PercentageEnds` | src/App.tsx:56 | a full score gives 100 and a zero score gives 0 |
| `View.FeedbackTier` | src/App.tsx:57-60 | top message exactly at 90 and above, middle message exactly from 60 up to below 90, encouragement exactly below 60 |
| `View.ThresholdIff` | src/App.tsx:56-59 | the rounded percentage reaches a whole threshold `k` exactly when `200 * score >= (2k - 1) * count` |
| `View.FinalTier` | src/App.tsx:55-60 | the summary message is the top one exactly when `200 * score >= 179 * count` (89.5 per cent), encouragement exactly when `200 * score < 119 * count` (below 59.5 per cent), and the middle one in between |
| `View.FinalTierMonotone` | src/App.tsx:55-60 | a higher score never gives a worse feedback message |
| `View.FinishedPercentageInRange` | src/App.tsx:55-56 | in every state reachable from the start, the percentage that picks the summary message is at most 100 |
| `View.ClassifyOption` | src/App.tsx:164-182 | before submission an option is highlighted exactly when it is the selection; after submission it is marked correct exactly when it is the answer, marked wrong exactly when it is a wrong selection, and dimmed otherwise |
| `View.IconsFollowLook` | src/App.tsx:192-193 | the check icon appears exactly on the correct-marked button and the cross exactly on the wrong-marked one |
| `View.SubmittedMarks` | src/App.tsx:164-182 | with distinct options that include the answer, a submitted question marks exactly one option correct and at most one wrong; exactly one is wrong when the selection is a wrong listed option |
| `View.PendingHighlight` | src/App.tsx:170-173 | before submission, at most one of the distinct options is highlighted, and exactly one when the selection is listed |
| `View.ClassifyBlank` | src/App.tsx:152-156 | the blank is grey exactly when the selection is null or empty; neutral for a pending selection; green exactly for a submitted right answer; red exactly for a submitted wrong one |
| `View.BlankText` | src/App.tsx:157 | the blank shows the selection when it is non-empty and the placeholder otherwise, so it is never empty |
| `View.BlankShowsChoice` | src/App.tsx:157 | after choosing an available option of a well-formed question the blank shows that option in its pending colour; a fresh session shows the placeholder |
| `View.BlankAgreesWithOptions` | src/App.tsx:152-182 | in a good state the blank agrees with the buttons: it is never grey after submission; it is green exactly when the chosen button has the check mark and red exactly when it has the cross; a pending choice is highlighted |
| `Scenarios.FirstQuestionRight` | src/App.tsx:20-26 | choosing "Although" on question 1 and submitting locks it in as correct, with score 1 |
| `Scenarios.FirstQuestionWrong` | src/App.tsx:164-182 | choosing "Because" on question 1 gives score 0; in the state reached, its first option ("Although") is marked correct, the second ("Because") wrong, and the other two are dimmed |
| `Scenarios.PerfectRunOnBank` | src/App.tsx:55-60 | ten correct answers on the shipped bank finish with score 10, 100 percent and the top message |
| `Scenarios.TierExamples` | src/App.tsx:56-60 | on ten questions, 9 points give 90 and the top message; 6 give 60 and the middle message; 5 give 50 and encouragement |

## Left out

- Rendering: JSX markup, Tailwind class strings, `motion`/`AnimatePresence` animation and `lucide-react` icons are presentational, and the last three are foreign libraries. Only the conditions that choose a look are modelled, as enums.
- `getDifficultyColor` (src/App.tsx:46-53) is a styling lookup with no behaviour.
- The progress counter and bar width (src/App.tsx:118-123) are display arithmetic, and the bar width uses floating point.
- The floating-point arithmetic inside `Math.round` (src/App.tsx:56) is not modelled. `View.Percentage` rounds the exact rational half-up. With ten questions, `100 * score / 10` is always a whole number, so no halfway case arises.
- React `useState` semantics are not modelled: batching, functional updaters and re-render timing. Each handler is one atomic update of the state record.
- The texts of `category`, `explanation` and the three Chinese feedback messages are display-only. The `Question` datatype drops those fields, and the feedback message is the `View.Tier` enum.
- `Session.Apply` requires the index to be in range for a submit. With an out-of-range index the question card cannot be rendered (`q.difficulty` at src/App.tsx:141 reads a missing question), so no submit button could be clicked there. `Traces.ReachableBounds` shows that such a state is never reached.
- `Session.HandleSelect` accepts any string, as the source does. Only `Session.Available` restricts clicks to the rendered options of the current question.
- That every `difficulty` is one of the three values, and every `sentenceParts` is a pair, holds by the types (`Difficulty` enum, `(string, string)` tuple), so no lemma states it.

=== FILE: questions.dfy ===
/**
  The static question bank of the quiz: the `Question` record, the
  `Difficulty` labels and the constant, ordered list of ten questions.
  The list is configuration data that the session state machine reads
  but never changes.
 */
module Questions {
  /** The three difficulty levels a question can carry. */
  datatype Difficulty = Beginner | Intermediate | Advanced

  /** The string-literal union the data file uses as its difficulty type. */
  const DifficultyLabels: set<string> := {"初级", "中级", "高级"}

  /** The label the data file writes for each difficulty level; it is always a member of the union. */
  function Label(d: Difficulty): (s: string)
    ensures s in DifficultyLabels
  {
    match d
    case Beginner => "初级"
    case Intermediate => "中级"
    case Advanced => "高级"
  }

  /**
    The levels and the labels of the union correspond one to one: every
    label of the union is some level's label, and no two levels share one.
   */
  lemma LabelsMatchUnion()
    ensures forall s :: s in DifficultyLabels <==> exists d: Difficulty :: Label(d) == s
    ensures forall d: Difficulty, e: Difficulty :: Label(d) == Label(e) ==> d == e
  {
    forall s | s in DifficultyLabels
      ensures exists d: Difficulty :: Label(d) == s
    {
      if s == "初级" {
        assert Label(Beginner) == s;
      } else if s == "中级" {
        assert Label(Intermediate) == s;
      } else {
        assert Label(Advanced) == s;
      }
    }
  }

  /**
    One quiz item.  `sentenceParts` is the text before and after the blank.
    The category label and the explanation texts are display-only and are
    not part of this model.
   */
  datatype Question = Question(
    id: int,
    sentenceParts: (string, string),
    options: seq<string>,
    correctAnswer: string,
    difficulty: Difficulty)

  /** No option text occurs twice. */
  predicate Distinct(opts: seq<string>)
  {
    forall i, j :: 0 <= i < j < |opts| ==> opts[i] != opts[j]
  }

  /**
    What the session relies on for one question: four distinct, non-empty
    options, one of which is the correct answer.
   */
  predicate WellFormedQuestion(q: Question)
  {
    && |q.options| == 4
    && Distinct(q.options)
    && q.correctAnswer in q.options
    && forall i :: 0 <= i < |q.options| ==> q.options[i] != ""
  }

  /** What the session needs of a question list: at least one question, each well formed. */
  predicate UsableList(qs: seq<Question>)
  {
    && |qs| > 0
    && (forall i :: 0 <= i < |qs| ==> WellFormedQuestion(qs[i]))
  }

  /** A usable list whose ids run 1, 2, ... in order, as in the shipped bank. */
  predicate WellFormedList(qs: seq<Question>)
  {
    && UsableList(qs)
    && (forall i :: 0 <= i < |qs| ==> qs[i].id == i + 1)
  }

  /** Ids of a well-formed list are strictly ascending, hence unique. */
  lemma IdsAscending(qs: seq<Question>)
    requires WellFormedList(qs)
    ensures forall i, j :: 0 <= i < j < |qs| ==> qs[i].id < qs[j].id
    ensures forall i, j :: 0 <= i < |qs| && 0 <= j < |qs| && qs[i].id == qs[j].id ==> i == j
  {
  }

  /** The question bank shipped with the quiz, in presentation order, one constant per question. */
  const Q1 := Question(1, ("", " tired, she still finished the report."),
    ["Although", "Because", "Unless", "Despite"], "Although", Beginner)
  const Q2 := Question(2, ("The book ", " you lent me is very interesting."),
    ["what", "who", "which", "whose"], "which", Beginner)
  const Q3 := Question(3, ("", " from the top of the tower, the city looks beautiful."),
    ["Seen", "Seeing", "To see", "See"], "Seen", Intermediate)
  const Q4 := Question(4, ("I will go to the park with you ", " it rains tomorrow."),
    ["if", "unless", "because", "since"], "unless", Intermediate)
  const Q5 := Question(5, ("The teacher demanded that the homework ", " handed in tomorrow."),
    ["is", "was", "be", "will be"], "be", Advanced)
  const Q6 := Question(6, ("It was not until midnight ", " he finished his work."),
    ["when", "that", "which", "since"], "that", Intermediate)
  const Q7 := Question(7, ("With his homework ", ", the boy went out to play."),
    ["doing", "done", "to do", "did"], "done", Advanced)
  const Q8 := Question(8, ("I have no idea ", " he will come back."),
    ["where", "when", "that", "which"], "when", Intermediate)
  const Q9 := Question(9, ("She is the only one of the students who ", " passed the exam."),
    ["have", "has", "had", "having"], "has", Advanced)
  const Q10 := Question(10, ("Hardly ", " the station when the train left."),
    ["I had reached", "had I reached", "I reached", "did I reach"], "had I reached", Advanced)

  const AllQuestions: seq<Question> := [Q1, Q2, Q3, Q4, Q5, Q6, Q7, Q8, Q9, Q10]

  /** Spells out `WellFormedQuestion` for a four-option question, one comparison at a time. */
  lemma FourOptionsWellFormed(q: Question)
    requires |q.options| == 4
    requires q.options[0] != q.options[1] && q.options[0] != q.options[2] && q.options[0] != q.options[3]
    requires q.options[1] != q.options[2] && q.options[1] != q.options[3] && q.options[2] != q.options[3]
    requires q.options[0] != "" && q.options[1] != "" && q.options[2] != "" && q.options[3] != ""
    requires q.correctAnswer in q.options
    ensures WellFormedQuestion(q)
  {
  }

  /** Each shipped question has four distinct, non-empty options including its answer. */
  lemma EachQuestionWellFormed()
    ensures WellFormedQuestion(Q1) && WellFormedQuestion(Q2) && WellFormedQuestion(Q3)
    ensures WellFormedQuestion(Q4) && WellFormedQuestion(Q5) && WellFormedQuestion(Q6)
    ensures WellFormedQuestion(Q7) && WellFormedQuestion(Q8) && WellFormedQuestion(Q9)
    ensures WellFormedQuestion(Q10)
  {
    FourOptionsWellFormed(Q1);
    FourOptionsWellFormed(Q2);
    FourOptionsWellFormed(Q3);
    FourOptionsWellFormed(Q4);
    FourOptionsWellFormed(Q5);
    FourOptionsWellFormed(Q6);
    FourOptionsWellFormed(Q7);
    FourOptionsWellFormed(Q8);
    FourOptionsWellFormed(Q9);
    FourOptionsWellFormed(Q10);
  }

  /**
    The shipped bank satisfies every assumption the session makes about its
    data: ten questions with ids 1 to 10 in order, each well formed.
   */
  lemma AllQuestionsWellFormed()
    ensures |AllQuestions| == 10
    ensures WellFormedList(AllQuestions)
    ensures AllQuestions[0].correctAnswer == "Although"
    ensures AllQuestions[9].correctAnswer == "had I reached"
  {
    EachQuestionWellFormed();
  }
}

=== FILE: scenarios.dfy ===
/**
  Concrete sessions over the shipped question bank, as a user would click
  through them.
 */
module Scenarios {
  import opened Questions
  import opened Session
  import opened Traces
  import opened View

  /** Choosing "Although" for the first question and submitting earns the first point. */
  lemma FirstQuestionRight()
    ensures ValidTrace(AllQuestions, Init(), [Select("Although"), Submit])
    ensures Run(AllQuestions, Init(), [Select("Although"), Submit]).submitted
    ensures IsCorrect(Run(AllQuestions, Init(), [Select("Although"), Submit]), AllQuestions[0])
    ensures Run(AllQuestions, Init(), [Select("Although"), Submit]).score == 1
  {
    assert [Select("Although"), Submit][1..] == [Submit];
  }

  /**
    Choosing "Because" instead earns nothing; the buttons then show
    "Although" as correct, "Because" as the wrong choice and the other two
    dimmed.
   */
  lemma FirstQuestionWrong()
    ensures ValidTrace(AllQuestions, Init(), [Select("Because"), Submit])
    ensures !IsCorrect(Run(AllQuestions, Init(), [Select("Because"), Submit]), AllQuestions[0])
    ensures Run(AllQuestions, Init(), [Select("Because"), Submit]).score == 0
    ensures var r := Run(AllQuestions, Init(), [Select("Because"), Submit]);
      var q := AllQuestions[0];
      && ClassifyOption(q.options[0], r.selected, r.submitted, q.correctAnswer) == MarkedCorrect
      && ClassifyOption(q.options[1], r.selected, r.submitted, q.correctAnswer) == MarkedWrong
      && ClassifyOption(q.options[2], r.selected, r.submitted, q.correctAnswer) == Dimmed
      && ClassifyOption(q.options[3], r.selected, r.submitted, q.correctAnswer) == Dimmed
  {
    assert [Select("Because"), Submit][1..] == [Submit];
  }

  /** Answering all ten questions correctly ends with 10 points, 100 percent and the top message. */
  lemma PerfectRunOnBank()
    ensures ValidTrace(AllQuestions, Init(), PerfectFrom(AllQuestions, 0))
    ensures Run(AllQuestions, Init(), PerfectFrom(AllQuestions, 0)).finished
    ensures Run(AllQuestions, Init(), PerfectFrom(AllQuestions, 0)).score == 10
    ensures Percentage(Run(AllQuestions, Init(), PerfectFrom(AllQuestions, 0)).score, |AllQuestions|) == 100
    ensures FinalTier(Run(AllQuestions, Init(), PerfectFrom(AllQuestions, 0)).score, |AllQuestions|) == Excellent
  {
    AllQuestionsWellFormed();
    PerfectSession(AllQuestions);
    PercentageEnds(10);
  }

  /** The tier boundaries on a ten-question quiz: 9 and 6 points reach the higher tier, 5 does not. */
  lemma TierExamples()
    ensures Percentage(9, 10) == 90 && FinalTier(9, 10) == Excellent
    ensures Percentage(6, 10) == 60 && FinalTier(6, 10) == Good
    ensures Percentage(5, 10) == 50 && FinalTier(5, 10) == KeepTrying
  {
    PercentageIsNearest(9, 10, 90);
    PercentageIsNearest(6, 10, 60);
    PercentageIsNearest(5, 10, 50);
  }
}

=== FILE: session.dfy ===
/**
  The quiz session state machine: one state record and the four click
  handlers that change it, plus the rendering rules that decide which
  handler a user can reach from a given state.

  Each handler is modelled exactly as written, as one atomic update of the
  record.  In particular `HandleSubmit` and `HandleNext` do not look at
  `submitted`; only `Available` (which buttons are on screen) keeps a
  question from being submitted twice or skipped unanswered.
 */
module Session {
  import opened Wrappers
  import opened Questions

  /** The five pieces of component state. */
  datatype State = State(
    currentIdx: nat,
    selected: Option<string>,
    submitted: bool,
    score: nat,
    finished: bool)

  /** The state a session starts in: first question, nothing chosen, no points. */
  function Init(): (r: State)
    ensures r.currentIdx == 0 && r.score == 0
    ensures !r.submitted && !r.finished && r.selected == None
  {
    State(0, None, false, 0, false)
  }

  /**
    JavaScript truthiness of the `string | null` selection: both `null` and
    the empty string count as "nothing selected".
   */
  function HasSelection(sel: Option<string>): (ok: bool)
    ensures ok <==> sel != None && sel != Some("")
  {
    sel.Some? && sel.value != ""
  }

  /** Clicking an option: ignored once the answer is locked in, otherwise it replaces the selection. */
  function HandleSelect(s: State, option: string): (r: State)
    ensures s.submitted ==> r == s
    ensures !s.submitted ==> r.selected == Some(option)
    ensures r.currentIdx == s.currentIdx && r.submitted == s.submitted
    ensures r.score == s.score && r.finished == s.finished
  {
    if s.submitted then s else s.(selected := Some(option))
  }

  /**
    Clicking "submit" for question `q`: ignored without a (non-empty)
    selection; otherwise locks the answer in and credits one point exactly
    when the selection equals the correct answer, compared case-sensitively.
   */
  function HandleSubmit(s: State, q: Question): (r: State)
    ensures !HasSelection(s.selected) ==> r == s
    ensures HasSelection(s.selected) ==> r.submitted
    ensures HasSelection(s.selected) ==>
      (r.score == s.score + 1 <==> s.selected.value == q.correctAnswer)
    ensures HasSelection(s.selected) ==>
      (r.score == s.score <==> s.selected.value != q.correctAnswer)
    ensures r.currentIdx == s.currentIdx && r.selected == s.selected && r.finished == s.finished
  {
    if !HasSelection(s.selected) then s
    else
      var credited := if s.selected.value == q.correctAnswer then s.score + 1 else s.score;
      s.(submitted := true, score := credited)
  }

  /**
    Clicking "next" with `count` questions in the list: moves to the next
    question with a clean slate, or, on the last question, ends the session
    and leaves the index where it is.  The score is never touched.
   */
  function HandleNext(s: State, count: int): (r: State)
    ensures r.score == s.score
    ensures s.currentIdx < count ==> r.currentIdx < count
    ensures r.currentIdx != s.currentIdx <==> s.currentIdx < count - 1
    ensures r.currentIdx != s.currentIdx ==>
      r.currentIdx == s.currentIdx + 1 && r.selected == None && !r.submitted && r.finished == s.finished
    ensures r.currentIdx == s.currentIdx ==>
      r.finished && r.selected == s.selected && r.submitted == s.submitted
  {
    if s.currentIdx < count - 1 then
      s.(currentIdx := s.currentIdx + 1, selected := None, submitted := false)
    else
      s.(finished := true)
  }

  /** Clicking "restart": every field goes back to its starting value, whatever the state was. */
  function HandleRestart(s: State): (r: State)
    ensures r == Init()
  {
    State(0, None, false, 0, false)
  }

  /** A user action: one of the four buttons. */
  datatype Action = Select(option: string) | Submit | Next | Restart

  /**
    Whether the button for `a` is on screen and enabled in state `s`.
    The finished view shows only "restart"; the question view (which reads
    the current question, so needs the index in range) shows the option
    buttons, enabled while not submitted, then either "submit" (enabled
    only with a selection) or "next" (only after submitting).
   */
  function Available(qs: seq<Question>, s: State, a: Action): (ok: bool)
    ensures s.finished ==> (ok <==> a.Restart?)
    ensures ok && !s.finished ==> s.currentIdx < |qs|
    ensures !s.finished && a.Restart? ==> !ok
    ensures !s.finished && a.Select? ==>
      (ok <==> s.currentIdx < |qs| && !s.submitted && a.option in qs[s.currentIdx].options)
    ensures !s.finished && a.Submit? ==>
      (ok <==> s.currentIdx < |qs| && !s.submitted && HasSelection(s.selected))
    ensures !s.finished && a.Next? ==> (ok <==> s.currentIdx < |qs| && s.submitted)
  {
    if s.finished then a.Restart?
    else
      && s.currentIdx < |qs|
      && match a
         case Select(o) => !s.submitted && o in qs[s.currentIdx].options
         case Submit => !s.submitted && HasSelection(s.selected)
         case Next => s.submitted
         case Restart => false
  }

  /** Runs the handler an action triggers, against the question list `qs`. */
  function Apply(qs: seq<Question>, s: State, a: Action): (r: State)
    requires a.Submit? ==> s.currentIdx < |qs|
    ensures a.Restart? ==> r == Init()
    ensures !a.Restart? ==> r.score >= s.score
  {
    match a
    case Select(o) => HandleSelect(s, o)
    case Submit => HandleSubmit(s, qs[s.currentIdx])
    case Next => HandleNext(s, |qs|)
    case Restart => HandleRestart(s)
  }

  /** The lowest question index that can still earn a point in this session. */
  function NextCreditable(s: State): nat
  {
    s.currentIdx + (if s.submitted then 1 else 0)
  }

  /**
    What holds in every state a user can reach: the index is in range, the
    score never exceeds the questions answered so far, a locked-in answer is
    a real selection, the session only ends after the last answer was
    submitted, and any selection is one of the current question's options.
   */
  predicate Inv(qs: seq<Question>, s: State)
  {
    && s.currentIdx < |qs|
    && s.score <= NextCreditable(s)
    && (s.submitted ==> HasSelection(s.selected))
    && (s.finished ==> s.submitted)
    && (s.selected.Some? ==> s.selected.value in qs[s.currentIdx].options)
  }

  /** The session starts in a good state whenever there is at least one question. */
  lemma InitInv(qs: seq<Question>)
    requires |qs| > 0
    ensures Inv(qs, Init())
  {
  }

  /** A good state bounds the score by the number of questions. */
  lemma InvBounds(qs: seq<Question>, s: State)
    requires Inv(qs, s)
    ensures 0 <= s.currentIdx < |qs|
    ensures s.score <= NextCreditable(s) <= |qs|
  {
  }

  /** Every action on screen keeps the state good. */
  lemma StepKeepsInv(qs: seq<Question>, s: State, a: Action)
    requires Inv(qs, s)
    requires Available(qs, s, a)
    ensures Inv(qs, Apply(qs, s, a))
  {
  }

  /** Action `a` submits the correct answer to the current question. */
  predicate Credits(qs: seq<Question>, s: State, a: Action)
  {
    a.Submit? && s.currentIdx < |qs| && s.selected == Some(qs[s.currentIdx].correctAnswer)
  }

  /**
    An available step other than restart earns a point exactly when it
    submits the right answer; it never lowers `NextCreditable`, and a step
    that earns a point earns it for the current question and moves
    `NextCreditable` past it.  With no restart in between, a question can
    therefore be credited once at most.
   */
  lemma StepCreditsOnce(qs: seq<Question>, s: State, a: Action)
    requires Available(qs, s, a)
    requires !a.Restart?
    ensures Apply(qs, s, a).score == s.score + (if Credits(qs, s, a) then 1 else 0)
    ensures NextCreditable(Apply(qs, s, a)) >= NextCreditable(s)
    ensures Credits(qs, s, a) ==>
      NextCreditable(s) == s.currentIdx && NextCreditable(Apply(qs, s, a)) == s.currentIdx + 1
  {
  }

  /** The derived "answer is right" fact shown on the feedback card. */
  function IsCorrect(s: State, q: Question): (ok: bool)
    ensures ok ==> s.submitted && s.selected.Some?
    ensures q.correctAnswer != "" ==>
      (ok <==> s.submitted && HasSelection(s.selected) && s.selected.value == q.correctAnswer)
  {
    s.submitted && s.selected == Some(q.correctAnswer)
  }

  /** A submit on screen earns a point exactly when the feedback card then says "correct". */
  lemma SubmitScoresIffCorrect(qs: seq<Question>, s: State)
    requires Available(qs, s, Submit)
    ensures Apply(qs, s, Submit).submitted
    ensures Apply(qs, s, Submit).score == s.score + 1 <==> IsCorrect(Apply(qs, s, Submit), qs[s.currentIdx])
    ensures Apply(qs, s, Submit).score == s.score <==> !IsCorrect(Apply(qs, s, Submit), qs[s.currentIdx])
  {
  }

  /** Choosing twice before submitting keeps only the second choice. */
  lemma SelectTwiceLastWins(s: State, x: string, y: string)
    requires !s.submitted
    ensures HandleSelect(HandleSelect(s, x), y) == s.(selected := Some(y))
    ensures !HandleSelect(HandleSelect(s, x), y).submitted
  {
  }

  /** Any real option of a usable list passes the submit guard once selected. */
  lemma SelectEnablesSubmit(qs: seq<Question>, s: State, o: string)
    requires UsableList(qs)
    requires Available(qs, s, Select(o))
    ensures Available(qs, HandleSelect(s, o), Submit)
  {
  }

  /**
    The handler itself has no `submitted` guard: called twice on a right
    answer it credits two points.  Only the rendering prevents this.
   */
  lemma SubmitTwiceAsWritten(s: State, q: Question)
    requires HasSelection(s.selected) && s.selected.value == q.correctAnswer
    ensures HandleSubmit(HandleSubmit(s, q), q).score == s.score + 2
  {
  }

  /** Once submitted, the submit button is gone until the next question. */
  lemma SubmitNotAvailableTwice(qs: seq<Question>, s: State)
    requires Available(qs, s, Submit)
    ensures !Available(qs, Apply(qs, s, Submit), Submit)
    ensures Available(qs, Apply(qs, s, Submit), Next)
  {
  }

  /**
    The "next" handler has no `submitted` guard either: it advances from an
    unanswered question as readily as from an answered one, and whether or
    not the session is finished; only the rendering rules this out.
   */
  lemma NextAsWrittenIgnoresSubmitted(qs: seq<Question>, s: State)
    requires !s.submitted && s.currentIdx + 1 < |qs|
    ensures HandleNext(s, |qs|).currentIdx == s.currentIdx + 1
    ensures !Available(qs, s, Next)
  {
  }
}

=== FILE: traces.dfy ===
/**
  Sequences of user actions.  A trace is valid when every action in it is
  on screen at the moment it is taken; the lemmas here lift the one-step
  facts of the Session module to whole sessions.
 */
module Traces {
  import opened Wrappers
  import opened Questions
  import opened Session

  /** Every action of `acts`, taken in order from `s`, is available when taken. */
  predicate ValidTrace(qs: seq<Question>, s: State, acts: seq<Action>)
    decreases |acts|
  {
    |acts| == 0 ||
    (Available(qs, s, acts[0]) && ValidTrace(qs, Apply(qs, s, acts[0]), acts[1..]))
  }

  /** The state a valid trace ends in. */
  function Run(qs: seq<Question>, s: State, acts: seq<Action>): State
    requires ValidTrace(qs, s, acts)
    decreases |acts|
  {
    if |acts| == 0 then s else Run(qs, Apply(qs, s, acts[0]), acts[1..])
  }

  /** The trace never presses "restart". */
  predicate NoRestart(acts: seq<Action>)
  {
    forall i :: 0 <= i < |acts| ==> !acts[i].Restart?
  }

  /**
    The indices of the questions for which the trace submits the correct
    answer, in the order the submissions happen.
   */
  function CorrectSubmits(qs: seq<Question>, s: State, acts: seq<Action>): seq<nat>
    requires ValidTrace(qs, s, acts)
    decreases |acts|
  {
    if |acts| == 0 then []
    else
      (if Credits(qs, s, acts[0]) then [s.currentIdx] else []) + CorrectSubmits(qs, Apply(qs, s, acts[0]), acts[1..])
  }

  predicate StrictlyIncreasing(xs: seq<nat>)
  {
    forall i, j :: 0 <= i < j < |xs| ==> xs[i] < xs[j]
  }

  /** Every state a valid trace passes through from a good state is good. */
  lemma {:induction false} TraceKeepsInv(qs: seq<Question>, s: State, acts: seq<Action>)
    requires Inv(qs, s)
    requires ValidTrace(qs, s, acts)
    ensures Inv(qs, Run(qs, s, acts))
    decreases |acts|
  {
    if |acts| > 0 {
      StepKeepsInv(qs, s, acts[0]);
      TraceKeepsInv(qs, Apply(qs, s, acts[0]), acts[1..]);
    }
  }

  /**
    Every reachable state: the index stays in range and
    `score <= currentIdx + (submitted ? 1 : 0) <= |qs|`.
   */
  lemma ReachableBounds(qs: seq<Question>, acts: seq<Action>)
    requires |qs| > 0
    requires ValidTrace(qs, Init(), acts)
    ensures Inv(qs, Run(qs, Init(), acts))
    ensures Run(qs, Init(), acts).currentIdx < |qs|
    ensures Run(qs, Init(), acts).score <= NextCreditable(Run(qs, Init(), acts)) <= |qs|
  {
    InitInv(qs);
    TraceKeepsInv(qs, Init(), acts);
  }

  /** Without a restart, the score grows by exactly the number of correct submissions. */
  lemma {:induction false} ScoreCountsCorrectSubmits(qs: seq<Question>, s: State, acts: seq<Action>)
    requires ValidTrace(qs, s, acts)
    requires NoRestart(acts)
    ensures Run(qs, s, acts).score == s.score + |CorrectSubmits(qs, s, acts)|
    decreases |acts|
  {
    if |acts| > 0 {
      var s' := Apply(qs, s, acts[0]);
      NoRestartTail(acts);
      ScoreCountsCorrectSubmits(qs, s', acts[1..]);
    }
  }

  /** Dropping the first action keeps a trace restart-free. */
  lemma NoRestartTail(acts: seq<Action>)
    requires |acts| > 0 && NoRestart(acts)
    ensures NoRestart(acts[1..])
  {
    forall i | 0 <= i < |acts[1..]|
      ensures !acts[1..][i].Restart?
    {
      assert acts[1..][i] == acts[i + 1];
    }
  }

  /** Increasing sequences whose elements all lie in `[lo, hi)`. */
  predicate IncreasingWithin(xs: seq<nat>, lo: int, hi: int)
  {
    && StrictlyIncreasing(xs)
    && forall k :: 0 <= k < |xs| ==> lo <= xs[k] < hi
  }

  /** Lowering the lower bound keeps a sequence within bounds. */
  lemma WidenWithin(xs: seq<nat>, lo: int, lo': int, hi: int)
    requires IncreasingWithin(xs, lo, hi)
    requires lo' <= lo
    ensures IncreasingWithin(xs, lo', hi)
  {
  }

  /** Putting an index in front of an increasing sequence of larger ones keeps it increasing. */
  lemma PrependIncreasing(x: nat, xs: seq<nat>, lo: int, hi: int)
    requires lo <= x < hi
    requires IncreasingWithin(xs, x + 1, hi)
    ensures IncreasingWithin([x] + xs, lo, hi)
  {
    var all := [x] + xs;
    forall i, j | 0 <= i < j < |all|
      ensures all[i] < all[j]
    {
      assert all[j] == xs[j - 1];
      if i > 0 {
        assert all[i] == xs[i - 1];
      }
    }
    forall k | 0 <= k < |all|
      ensures lo <= all[k] < hi
    {
      if k > 0 {
        assert all[k] == xs[k - 1];
      }
    }
  }

  /**
    Without a restart, correct submissions concern strictly increasing
    question indices, none below the first still-creditable question and
    all inside the list: each question earns its point at most once.
   */
  lemma {:induction false} CreditedAtMostOnce(qs: seq<Question>, s: State, acts: seq<Action>)
    requires ValidTrace(qs, s, acts)
    requires NoRestart(acts)
    ensures IncreasingWithin(CorrectSubmits(qs, s, acts), NextCreditable(s), |qs|)
    decreases |acts|
  {
    if |acts| > 0 {
      var a := acts[0];
      var s' := Apply(qs, s, a);
      var rest := CorrectSubmits(qs, s', acts[1..]);
      NoRestartTail(acts);
      StepCreditsOnce(qs, s, a);
      CreditedAtMostOnce(qs, s', acts[1..]);
      CorrectSubmitsCons(qs, s, acts);
      if Credits(qs, s, a) {
        PrependIncreasing(s.currentIdx, rest, NextCreditable(s), |qs|);
      } else {
        WidenWithin(rest, NextCreditable(s'), NextCreditable(s), |qs|);
      }
    }
  }

  /** One step of `CorrectSubmits`: the first action's credit, then the rest of the trace's. */
  lemma CorrectSubmitsCons(qs: seq<Question>, s: State, acts: seq<Action>)
    requires ValidTrace(qs, s, acts)
    requires |acts| > 0
    ensures ValidTrace(qs, Apply(qs, s, acts[0]), acts[1..])
    ensures CorrectSubmits(qs, s, acts) ==
      if Credits(qs, s, acts[0]) then [s.currentIdx] + CorrectSubmits(qs, Apply(qs, s, acts[0]), acts[1..])
      else CorrectSubmits(qs, Apply(qs, s, acts[0]), acts[1..])
  {
    var rest := CorrectSubmits(qs, Apply(qs, s, acts[0]), acts[1..]);
    assert [] + rest == rest;
  }

  /**
    A whole session from the start with no restart: the final score is the
    number of questions answered correctly, each counted once, so it never
    exceeds the number of questions.
   */
  lemma SessionScore(qs: seq<Question>, acts: seq<Action>)
    requires |qs| > 0
    requires ValidTrace(qs, Init(), acts)
    requires NoRestart(acts)
    ensures Run(qs, Init(), acts).score == |CorrectSubmits(qs, Init(), acts)|
    ensures IncreasingWithin(CorrectSubmits(qs, Init(), acts), 0, |qs|)
    ensures Run(qs, Init(), acts).score <= |qs|
  {
    InitInv(qs);
    ScoreCountsCorrectSubmits(qs, Init(), acts);
    CreditedAtMostOnce(qs, Init(), acts);
    ReachableBounds(qs, acts);
  }

  /** Restart leaves a finished session and yields exactly the starting state. */
  lemma RestartAfterFinish(qs: seq<Question>, s: State)
    requires s.finished
    ensures ValidTrace(qs, s, [Restart])
    ensures Run(qs, s, [Restart]) == Init()
  {
  }

  /**
    A finished session offers nothing but "restart" (the one-click fact is
    the finished-screen clause of `Available`), so every click sequence
    from the summary screen begins with a restart, and one without any
    restart is empty.
   */
  lemma FinishedOnlyRestarts(qs: seq<Question>, s: State, a: Action, acts: seq<Action>)
    requires s.finished
    ensures Available(qs, s, a) <==> a.Restart?
    ensures ValidTrace(qs, s, acts) && |acts| > 0 ==> acts[0].Restart?
    ensures ValidTrace(qs, s, acts) && NoRestart(acts) ==> acts == []
  {
  }

  /** The three clicks that answer question `i` correctly and move on. */
  function AnswerRight(qs: seq<Question>, i: nat): seq<Action>
    requires i < |qs|
  {
    [Select(qs[i].correctAnswer), Submit, Next]
  }

  /** Answering every question from index `i` on correctly. */
  function PerfectFrom(qs: seq<Question>, i: nat): seq<Action>
    requires i <= |qs|
    decreases |qs| - i
  {
    if i == |qs| then [] else AnswerRight(qs, i) + PerfectFrom(qs, i + 1)
  }

  /** A question view in which nothing has been chosen or submitted yet. */
  predicate FreshQuestion(qs: seq<Question>, s: State)
  {
    s.currentIdx < |qs| && s.selected == None && !s.submitted && !s.finished
  }

  /**
    Answering every remaining question correctly from a fresh question
    view is a valid trace that ends the session with one extra point per
    remaining question.
   */
  lemma {:induction false} PerfectFromScores(qs: seq<Question>, s: State)
    requires UsableList(qs)
    requires FreshQuestion(qs, s)
    ensures ValidTrace(qs, s, PerfectFrom(qs, s.currentIdx))
    ensures Run(qs, s, PerfectFrom(qs, s.currentIdx)).finished
    ensures Run(qs, s, PerfectFrom(qs, s.currentIdx)).score == s.score + (|qs| - s.currentIdx)
    decreases |qs| - s.currentIdx
  {
    var i := s.currentIdx;
    var c := qs[i].correctAnswer;
    var s1 := HandleSelect(s, c);
    var s2 := HandleSubmit(s1, qs[i]);
    var s3 := HandleNext(s2, |qs|);
    var rest := PerfectFrom(qs, i + 1);
    var acts := PerfectFrom(qs, i);
    assert acts == [Select(c), Submit, Next] + rest;
    assert acts[1..] == [Submit, Next] + rest;
    assert acts[1..][1..] == [Next] + rest;
    assert acts[1..][1..][1..] == rest;
    if i + 1 < |qs| {
      PerfectFromScores(qs, s3);
    } else {
      assert rest == [];
    }
    assert ValidTrace(qs, s2, [Next] + rest);
    assert Run(qs, s, acts) == Run(qs, s1, acts[1..]);
    assert Run(qs, s2, acts[1..][1..]) == Run(qs, s3, rest);
  }

  /** Answering every question correctly from the start finishes with a full score. */
  lemma PerfectSession(qs: seq<Question>)
    requires UsableList(qs)
    ensures ValidTrace(qs, Init(), PerfectFrom(qs, 0))
    ensures NoRestart(PerfectFrom(qs, 0))
    ensures Run(qs, Init(), PerfectFrom(qs, 0)).finished
    ensures Run(qs, Init(), PerfectFrom(qs, 0)).score == |qs|
  {
    PerfectFromScores(qs, Init());
    PerfectFromNoRestart(qs, 0);
  }

  /** The all-correct click sequence never presses "restart". */
  lemma {:induction false} PerfectFromNoRestart(qs: seq<Question>, i: nat)
    requires i <= |qs|
    ensures NoRestart(PerfectFrom(qs, i))
    decreases |qs| - i
  {
    if i < |qs| {
      PerfectFromNoRestart(qs, i + 1);
      var rest := PerfectFrom(qs, i + 1);
      var acts := AnswerRight(qs, i) + rest;
      forall j | 0 <= j < |acts|
        ensures !acts[j].Restart?
      {
        if j >= 3 {
          assert acts[j] == rest[j - 3];
        }
      }
    }
  }
}

=== FILE: view.dfy ===
/**
  Facts the screen derives from the session state without storing them:
  the final percentage and feedback tier, how each option button is
  marked, and how the blank in the sentence is shown.
 */
module View {
  import opened Wrappers
  import opened Questions
  import opened Session
  import opened Traces

  // ---------------------------------------------------------------------
  // Final percentage and feedback tier
  // ---------------------------------------------------------------------

  /** Euclidean division of a value by a positive divisor brackets the value. */
  lemma DivBounds(n: int, d: int)
    requires d > 0
    ensures d * (n / d) <= n < d * (n / d) + d
  {
  }

  /** Multiplying by a non-negative factor keeps order. */
  lemma MulMonotone(a: int, b: int, c: nat)
    requires a <= b
    ensures a * c <= b * c
  {
  }

  /**
    `Math.round(score / count * 100)` on exact rationals: the integer
    nearest to `100 * score / count`, halves rounded up.
   */
  function Percentage(score: nat, count: nat): (p: nat)
    requires count > 0
    ensures -(count as int) <= 2 * (100 * score - p * count) < count
    ensures score <= count ==> p <= 100
  {
    var rounded := (200 * score + count) / (2 * count);
    DivBounds(200 * score + count, 2 * count);
    assert (2 * count) * rounded == 2 * (rounded * count);
    AtMostHundred(score, count, rounded);
    rounded
  }

  /** A rounded share of at most the whole is at most 100. */
  lemma AtMostHundred(score: nat, count: nat, p: int)
    requires count > 0
    requires 2 * (p * count) <= 200 * score + count
    ensures score <= count ==> p <= 100
  {
    if score <= count && p > 100 {
      MulMonotone(101, p, count);
    }
  }

  /**
    The nearest-integer property pins the percentage down: any integer
    within half a step of `100 * score / count` (ties going up) is it.
   */
  lemma PercentageIsNearest(score: nat, count: nat, m: int)
    requires count > 0
    requires -(count as int) <= 2 * (100 * score - m * count) < count
    ensures m == Percentage(score, count)
  {
    var p := Percentage(score, count);
    if m > p {
      MulMonotone(1, m - p, count);
    } else if m < p {
      MulMonotone(1, p - m, count);
    }
  }

  /** A higher score never gives a lower percentage. */
  lemma PercentageMonotone(score: nat, score': nat, count: nat)
    requires count > 0
    requires score <= score'
    ensures Percentage(score, count) <= Percentage(score', count)
  {
    var p := Percentage(score, count);
    var p' := Percentage(score', count);
    if p > p' {
      MulMonotone(1, p - p', count);
    }
  }

  /** A full score shows 100 and an empty one 0. */
  lemma PercentageEnds(count: nat)
    requires count > 0
    ensures Percentage(count, count) == 100
    ensures Percentage(0, count) == 0
  {
    PercentageIsNearest(count, count, 100);
    PercentageIsNearest(0, count, 0);
  }

  /** The three feedback messages of the summary screen, best first. */
  datatype Tier = Excellent | Good | KeepTrying

  /** Picks the message for a percentage; 90 and 60 belong to the higher tier. */
  function FeedbackTier(percentage: int): (t: Tier)
    ensures t == Excellent <==> percentage >= 90
    ensures t == Good <==> 60 <= percentage < 90
    ensures t == KeepTrying <==> percentage < 60
  {
    if percentage >= 90 then Excellent
    else if percentage >= 60 then Good
    else KeepTrying
  }

  /** Tiers ordered from worst (0) to best (2). */
  function Rank(t: Tier): nat
  {
    match t
    case KeepTrying => 0
    case Good => 1
    case Excellent => 2
  }

  /**
    The rounded percentage reaches `k` exactly when the score reaches
    `k - 1/2` per cent of the count, a test in whole numbers.
   */
  lemma ThresholdIff(score: nat, count: nat, k: nat)
    requires count > 0
    ensures Percentage(score, count) >= k <==> 200 * score >= (2 * k - 1) * count
  {
    var p := Percentage(score, count);
    if p >= k {
      MulMonotone(k, p, count);
    } else {
      MulMonotone(p, k - 1, count);
    }
  }

  /**
    The tier shown for a final score out of `count` questions: "excellent"
    from 89.5 per cent of the questions up, "keep trying" below 59.5 per
    cent, "good" in between.
   */
  function FinalTier(score: nat, count: nat): (t: Tier)
    requires count > 0
    ensures t == Excellent <==> 200 * score >= 179 * count
    ensures t == KeepTrying <==> 200 * score < 119 * count
    ensures t == Good <==> 119 * count <= 200 * score < 179 * count
  {
    ThresholdIff(score, count, 90);
    ThresholdIff(score, count, 60);
    FeedbackTier(Percentage(score, count))
  }

  /** A higher score never earns a worse message. */
  lemma FinalTierMonotone(score: nat, score': nat, count: nat)
    requires count > 0
    requires score <= score'
    ensures Rank(FinalTier(score, count)) <= Rank(FinalTier(score', count))
  {
    PercentageMonotone(score, score', count);
  }

  /**
    In every state reachable from the start, the percentage that picks the
    summary message is at most 100.
   */
  lemma FinishedPercentageInRange(qs: seq<Question>, acts: seq<Action>)
    requires |qs| > 0
    requires ValidTrace(qs, Init(), acts)
    ensures Percentage(Run(qs, Init(), acts).score, |qs|) <= 100
  {
    ReachableBounds(qs, acts);
  }

  // ---------------------------------------------------------------------
  // Option buttons
  // ---------------------------------------------------------------------

  /** How an option button is drawn. */
  datatype OptionLook =
    | Highlighted    // chosen, answer not yet submitted
    | Plain          // not chosen, answer not yet submitted
    | MarkedCorrect  // after submission: the right answer (check mark)
    | MarkedWrong    // after submission: the chosen wrong answer (cross)
    | Dimmed         // after submission: any other option

  /** The look of `option` given the selection, the submitted flag and the right answer. */
  function ClassifyOption(option: string, selected: Option<string>, submitted: bool, correct: string): (r: OptionLook)
    ensures !submitted ==> (r == Highlighted <==> selected == Some(option))
    ensures !submitted ==> (r == Plain <==> selected != Some(option))
    ensures submitted ==> (r == MarkedCorrect <==> option == correct)
    ensures submitted ==> (r == MarkedWrong <==> selected == Some(option) && option != correct)
    ensures submitted ==> (r == Dimmed <==> selected != Some(option) && option != correct)
  {
    var isSelected := selected == Some(option);
    var isCorrect := option == correct;
    if !submitted then
      (if isSelected then Highlighted else Plain)
    else if isCorrect then MarkedCorrect
    else if isSelected && !isCorrect then MarkedWrong
    else Dimmed
  }

  /** The check-mark and cross icons appear exactly on the correct and wrong-marked buttons. */
  lemma IconsFollowLook(option: string, selected: Option<string>, submitted: bool, correct: string)
    ensures (submitted && option == correct) <==> ClassifyOption(option, selected, submitted, correct) == MarkedCorrect
    ensures (submitted && selected == Some(option) && option != correct) <==>
      ClassifyOption(option, selected, submitted, correct) == MarkedWrong
  {
  }

  /** How many of `opts` are drawn with `look`. */
  function CountLook(opts: seq<string>, selected: Option<string>, submitted: bool, correct: string, look: OptionLook): nat
  {
    if |opts| == 0 then 0
    else
      var here := if ClassifyOption(opts[0], selected, submitted, correct) == look then 1 else 0;
      here + CountLook(opts[1..], selected, submitted, correct, look)
  }

  /** How many times `x` occurs in `opts`. */
  function Occurrences(opts: seq<string>, x: string): nat
  {
    if |opts| == 0 then 0 else (if opts[0] == x then 1 else 0) + Occurrences(opts[1..], x)
  }

  /** In a list of distinct options a text occurs once if present and never otherwise. */
  lemma {:induction false} DistinctOccurrences(opts: seq<string>, x: string)
    requires Distinct(opts)
    ensures Occurrences(opts, x) == if x in opts then 1 else 0
  {
    if |opts| > 0 {
      assert Distinct(opts[1..]);
      DistinctOccurrences(opts[1..], x);
      if opts[0] == x {
        assert x !in opts[1..] by {
          forall k | 0 <= k < |opts[1..]|
            ensures opts[1..][k] != x
          {
            assert opts[1..][k] == opts[k + 1];
          }
        }
      } else {
        assert x in opts <==> x in opts[1..] by {
          assert opts == [opts[0]] + opts[1..];
        }
      }
    }
  }

  /** After submission the correct-mark count is the number of times the answer occurs. */
  lemma {:induction false} MarkedCorrectCount(opts: seq<string>, selected: Option<string>, correct: string)
    ensures CountLook(opts, selected, true, correct, MarkedCorrect) == Occurrences(opts, correct)
  {
    if |opts| > 0 {
      MarkedCorrectCount(opts[1..], selected, correct);
    }
  }

  /** After submission the wrong-mark count is the number of times a wrong selection occurs. */
  lemma {:induction false} MarkedWrongCount(opts: seq<string>, selected: Option<string>, correct: string)
    ensures CountLook(opts, selected, true, correct, MarkedWrong) ==
      if selected.Some? && selected.value != correct then Occurrences(opts, selected.value) else 0
  {
    if |opts| > 0 {
      MarkedWrongCount(opts[1..], selected, correct);
    }
  }

  /** Before submission the highlight count is the number of times the selection occurs. */
  lemma {:induction false} HighlightedCount(opts: seq<string>, selected: Option<string>, correct: string)
    ensures CountLook(opts, selected, false, correct, Highlighted) ==
      if selected.Some? then Occurrences(opts, selected.value) else 0
  {
    if |opts| > 0 {
      HighlightedCount(opts[1..], selected, correct);
    }
  }

  /**
    With distinct options that include the right answer, a submitted
    question marks exactly one option correct and at most one wrong, and
    exactly one when the chosen option is a wrong one from the list.
   */
  lemma SubmittedMarks(opts: seq<string>, selected: Option<string>, correct: string)
    requires Distinct(opts)
    requires correct in opts
    ensures CountLook(opts, selected, true, correct, MarkedCorrect) == 1
    ensures CountLook(opts, selected, true, correct, MarkedWrong) <= 1
    ensures CountLook(opts, selected, true, correct, MarkedWrong) == 1 <==>
      selected.Some? && selected.value != correct && selected.value in opts
  {
    MarkedCorrectCount(opts, selected, correct);
    MarkedWrongCount(opts, selected, correct);
    DistinctOccurrences(opts, correct);
    if selected.Some? {
      DistinctOccurrences(opts, selected.value);
    }
  }

  /** Before submission at most one option is highlighted: the selected one, if it is listed. */
  lemma PendingHighlight(opts: seq<string>, selected: Option<string>, correct: string)
    requires Distinct(opts)
    ensures CountLook(opts, selected, false, correct, Highlighted) <= 1
    ensures CountLook(opts, selected, false, correct, Highlighted) == 1 <==>
      selected.Some? && selected.value in opts
  {
    HighlightedCount(opts, selected, correct);
    if selected.Some? {
      DistinctOccurrences(opts, selected.value);
    }
  }

  // ---------------------------------------------------------------------
  // The blank in the sentence
  // ---------------------------------------------------------------------

  /** How the blank is drawn. */
  datatype BlankLook =
    | Empty        // nothing (or the empty string) selected
    | Pending      // a selection not yet submitted
    | FilledRight  // submitted, and the selection is the right answer
    | FilledWrong  // submitted, and the selection is not the right answer

  /** The look of the blank given the selection, the submitted flag and the right answer. */
  function ClassifyBlank(selected: Option<string>, submitted: bool, correct: string): (r: BlankLook)
    ensures r == Empty <==> !HasSelection(selected)
    ensures r == Pending <==> HasSelection(selected) && !submitted
    ensures r == FilledRight <==> HasSelection(selected) && submitted && selected.value == correct
    ensures r == FilledWrong <==> HasSelection(selected) && submitted && selected.value != correct
  {
    if !HasSelection(selected) then Empty
    else if submitted then (if selected.value == correct then FilledRight else FilledWrong)
    else Pending
  }

  /** The placeholder the blank shows when nothing is selected. */
  const Placeholder: string := "______"

  /** The text in the blank: the selection, or the placeholder when the selection is falsy. */
  function BlankText(selected: Option<string>): (r: string)
    ensures HasSelection(selected) ==> r == selected.value
    ensures !HasSelection(selected) ==> r == Placeholder
    ensures r != ""
  {
    if HasSelection(selected) then selected.value else Placeholder
  }

  /**
    Choosing an option of a well-formed question writes it into the blank
    and turns the blank to its pending look; a fresh session shows the
    placeholder.
   */
  lemma BlankShowsChoice(qs: seq<Question>, s: State, o: string)
    requires UsableList(qs)
    requires Available(qs, s, Select(o))
    ensures BlankText(Apply(qs, s, Select(o)).selected) == o
    ensures var r := Apply(qs, s, Select(o));
      ClassifyBlank(r.selected, r.submitted, qs[s.currentIdx].correctAnswer) == Pending
    ensures BlankText(Init().selected) == Placeholder
  {
    assert WellFormedQuestion(qs[s.currentIdx]);
  }

  /**
    In every good state the blank agrees with the option buttons: once an
    answer is submitted the blank is never empty, it is green exactly when
    the chosen button carries the check mark and red exactly when it
    carries the cross; before submission a non-empty blank goes with a
    highlighted button.
   */
  lemma BlankAgreesWithOptions(qs: seq<Question>, s: State)
    requires Inv(qs, s)
    ensures s.submitted ==> ClassifyBlank(s.selected, s.submitted, qs[s.currentIdx].correctAnswer) != Empty
    ensures s.submitted ==>
      (ClassifyBlank(s.selected, s.submitted, qs[s.currentIdx].correctAnswer) == FilledRight <==>
       ClassifyOption(s.selected.value, s.selected, s.submitted, qs[s.currentIdx].correctAnswer) == MarkedCorrect)
    ensures s.submitted ==>
      (ClassifyBlank(s.selected, s.submitted, qs[s.currentIdx].correctAnswer) == FilledWrong <==>
       ClassifyOption(s.selected.value, s.selected, s.submitted, qs[s.currentIdx].correctAnswer) == MarkedWrong)
    ensures !s.submitted && HasSelection(s.selected) ==>
      ClassifyOption(s.selected.value, s.selected, s.submitted, qs[s.currentIdx].correctAnswer) == Highlighted
    ensures s.submitted ==> (ClassifyBlank(s.selected, s.submitted, qs[s.currentIdx].correctAnswer) == FilledRight
      <==> IsCorrect(s, qs[s.currentIdx]))
  {
  }
}

=== FILE: wrappers.dfy ===
/** An optional value, shared by the quiz model. */
module Wrappers {

  /** A value that may be absent; stands for TypeScript's `T | null`. */
  datatype Option<+T> = None | Some(value: T)
}
